=== FILE: README.md ===
# gee: route groups, middleware chains and panic recovery, in Dafny

This project models the core of **gee**, a small Go web framework, and proves
properties of that model. It covers:

- the **engine**, which is also the root route group. Route groups are kept in
  one flat registry. Each group has a prefix (its parent's prefix followed by
  its own), a middleware list and a parent.
- **route registration**. `addRoute`, `GET` and `POST` join the group prefix
  and the pattern, then collapse every run of `/` into one.
- **dispatch** (`ServeHTTP`):
  - it normalises the request path the same way;
  - it collects the middleware of every group whose prefix starts the path,
    in registry order;
  - it appends the routed handler and runs the chain.
- the **request context**: its cursor-driven `Next`, `Fail`, `Param`,
  `Status`, and the `String`/`JSON`/`Data` writers.
- the **recovery middleware**: it turns a panic in the rest of the chain into
  a logged trace and a 500 `Fail`. The trace text has at most 32 frame lines.

Modelling choices:

- A handler is data. It is either a script of the steps its body performs on
  the context (local work, `c.Next()`, response writes, `c.Fail`, `panic`) or
  the recovery middleware.
- Running the chain is four mutually recursive functions in `Chain`:
  - `Next` is the call;
  - `Drive` is its `for` loop;
  - `Invoke` is one handler call;
  - `Perform` walks a scripted body.
- The response writer becomes a log of the calls made on it. An execution
  trace records which handler indices the loop invoked, and every `Fail`.
- A panic is an outcome, `Fault(message)`. It propagates out of every
  function until `Recovery.Rescue`, the deferred `recover`, catches it.

Modules:

| module | file | contents |
|---|---|---|
| `Wrappers` | wrappers.dfy | `Option` |
| `Paths` | paths.dfy | the `/+` → `/` normalisation, a reference reading of it, and its loop implementation |
| `Traceback` | traceback.dfy | the trace text `trace` builds |
| `RequestContext` | context.dfy | context, steps, handlers, response writes, trace invariants, context operations |
| `Recovery` | recovery.dfy | the deferred recover-and-fail of `Recovery()` |
| `Chain` | chain.dfy | `Next` and the execution of handlers |
| `ChainFacts` | chain_facts.dfy | run-once, abort, recovery and cursor properties of the chain |
| `Gee` | gee.dfy | engine, groups, routes, middleware selection, `ServeHTTP` |
| `GeeFacts` | gee_facts.dfy | properties of registration, selection and dispatch |

## Model

| member | source | states |
|---|---|---|
| Paths.Collapse | gee/gee.go:51-52 | The normalised pattern is never longer than its input. It is empty only for empty input and keeps the first character. |
| Paths.CollapseClean | gee/gee.go:82-83 | The normalised path never has two consecutive slashes. |
| Paths.CollapseIsSqueeze | gee/gee.go:82-83 | The left-to-right "/+" → "/" replacement equals an independent local rule: delete every '/' that is immediately followed by another '/'. |
| Paths.CollapseFixpoint | gee/gee.go:82-83 | Normalisation leaves a path unchanged exactly when it has no "//". Both directions are proved. |
| Paths.CollapseIdempotent | gee/gee.go:82-83 | Normalising an already normalised path changes nothing. |
| Paths.CollapseKeepsContent | gee/gee.go:82-83 | Normalisation removes only slashes. The non-slash characters stay, in order. |
| Paths.DoubleSlashNeverPrefixes | gee/gee.go:82-86 | A prefix containing "//" never starts a normalised request path. |
| Paths.CollapseSlashes | gee/gee.go:82-83 | The two-loop scan over the path returns the normalised path. |
| Traceback.Trace | gee/recovery.go:26-37 | The trace text always begins with the panic message followed by "\n Traceback:". |
| Traceback.TraceFrameBound | gee/recovery.go:27-35 | When no file or function name contains a line break, the trace adds one line for the header and one per captured frame, at most 32 frame lines however deep the stack. |
| RequestContext.NewContext | gee/context.go:30-38 | A fresh context has the request's path and method, the cursor at -1 and status code 0. It has no parameters, handlers, writes or log lines, and it satisfies the chain invariant. |
| RequestContext.Param | gee/context.go:50-53 | Returns the captured parameter when the key is present, and "" otherwise. |
| RequestContext.Status | gee/context.go:66-69 | Sets the status code whatever it was before, writes the header with that code, and changes nothing else. |
| RequestContext.SetHeader | gee/context.go:72-74 | Adds exactly one header and changes nothing else. |
| RequestContext.String | gee/context.go:77-81 | Writes the Content-Type header text/plain, then the status, then the text body. The status code becomes `code`. |
| RequestContext.JSON | gee/context.go:84-93 | Writes the Content-Type header application/json, then the status, then the object body. The status code becomes `code`. |
| RequestContext.Data | gee/context.go:96-99 | Writes the status, then the raw bytes. No header is added. |
| RequestContext.Fail | gee/context.go:102-105 | Moves the cursor to the chain length and responds with JSON {"message": message} under `code`. It appends to the trace and the response only, and it keeps the chain invariant. |
| Recovery.Rescue | gee/recovery.go:12-23 | A panic never escapes the middleware. With no panic the run is untouched. After a panic, exactly one more Fail(500, "Internal Server Error") is recorded, the cursor ends at the chain length, the trace is logged followed by a blank line, and the earlier writes and trace are kept. |
| Chain.Next | gee/context.go:41-47 | `Next` keeps the request, parameters and chain. It never moves the effective cursor back and only appends to trace, response and log. It keeps the invariant: invocations are strictly increasing and none follows a Fail. Ending normally means the cursor is past the chain. |
| Chain.Drive | gee/context.go:44-46 | The same guarantees for the loop, entered with the cursor at any position. |
| Chain.Invoke | gee/context.go:45 | Calling one handler, scripted or the recovery middleware, keeps the request and chain and the trace invariant. |
| Chain.Perform | gee/context.go:41-47 | Running the rest of a handler's body, including nested `Next` calls, keeps the request and chain and the trace invariant. |
| Chain.Apply | gee/context.go:66-105 | A context operation in a handler body records only its own trace entry, a Note or a Fail. Only Fail moves the cursor. |
| ChainFacts.NextRunsRest | gee/context.go:41-47 | When no remaining handler fails or panics, `Next` ends normally and invokes each remaining handler exactly once, in index order. This holds whether or not the handlers call `Next` themselves. |
| ChainFacts.DriveRunsRest | gee/context.go:44-46 | The loop, from cursor i, invokes exactly handlers i, i+1, ..., N-1 when none fails or panics. |
| ChainFacts.InvokeRuns | gee/context.go:45 | A calm handler that calls `Next` leaves every later handler run once and the cursor past the end. One that does not call `Next` invokes nothing else and leaves the cursor where it was. |
| ChainFacts.PerformRuns | gee/context.go:41-47 | The same split for the rest of a scripted body: the first `Next` in it runs all later handlers once, and without one nothing else runs. |
| ChainFacts.ExhaustedInvokesNothing | gee/context.go:42-44 | Once the cursor is at or past the chain length, no further handler is invoked by anything a handler body does. |
| ChainFacts.AbortSkipsRest | gee/context.go:102-105 | A body that starts with Fail invokes no later handler. It leaves the cursor past the end, so the enclosing loop stops too and returns the context unchanged apart from its cursor bump. |
| ChainFacts.RecoveryContainsFault | gee/recovery.go:14-21 | The recovery middleware returns normally and leaves the cursor past the end. Without a panic it is exactly `Next`. With a panic it adds one 500 Fail after the effects of what already ran. |
| ChainFacts.PanicBeforeRecoveryEscapes | gee/recovery.go:12-22 | A first handler whose body opens with a panic ends the request with that panic, even with a recovery middleware later in the chain: recovery covers only what runs inside its own `Next`. |
| ChainFacts.RecoveryFirstNeverFaults | gee/recovery.go:12-22 | With the recovery middleware first in the chain, no panic anywhere in the chain escapes the request. |
| ChainFacts.CursorCanMoveBack | gee/context.go:102-105 | In a two-handler run where the first handler calls `Next` and then Fail and the second fails, the nested loop leaves the cursor at 3 (N+1), the first handler's Fail sets it back to 2 (N), and the run ends normally at 3. The raw cursor is not monotone. |
| Gee.New | gee/gee.go:29-34 | The new engine holds one root group, with the empty prefix and no middleware, and no routes. The registry invariant holds. |
| Gee.NewGroup | gee/gee.go:37-46 | The new group's prefix is the parent's prefix followed by the argument, unnormalised. Its parent is the calling group and it is appended last. Earlier groups and routes are untouched and the registry invariant is kept. |
| Gee.Use | gee/gee.go:73-75 | The middlewares are appended, in order, to that group's list only. Every other group, the routes, and the registry invariant are kept. |
| Gee.AddRoute | gee/gee.go:49-55 | Exactly one route is appended: the group prefix followed by the pattern, with every run of '/' replaced by one '/', under the given method and handler. So the stored pattern has no "//" and keeps every non-slash character of prefix+pattern in order. |
| Gee.GET | gee/gee.go:58-60 | Registers the normalised prefix+pattern under "GET". |
| Gee.POST | gee/gee.go:63-65 | Registers the normalised prefix+pattern under "POST". |
| Gee.Handle | gee/gee.go:90-92 | The routed handler (or the not-found handler) goes after the middleware, and the route's parameters are installed. The cursor stays at -1 and the invariant holds. |
| Gee.ServeHTTP | gee/gee.go:78-94 | The context path is the normalised request path, with no "//". The chain is the selected middleware followed by the routed or not-found handler. Handlers run in strictly increasing order, none after a Fail, and a normal end leaves the cursor past the chain. |
| Gee.SelectMiddlewares | gee/gee.go:85-89 | The loop over the registry gathers exactly `MiddlewaresFor`: the lists of every group whose prefix starts the path, in registry order. |
| GeeFacts.SelectedAt | gee/gee.go:85-89 | A group's share of the chain sits between those of the groups registered before and after it. |
| GeeFacts.SelectedExactly | gee/gee.go:85-89 | A handler is in the chain exactly when some group whose prefix starts the path lists it. Both directions are proved. |
| GeeFacts.RootFirst | gee/gee.go:85-89 | The root group's middleware opens every chain, for every path. |
| GeeFacts.ParentMatches | gee/gee.go:37-46 | When a nested group matches a path, its parent exists, was registered earlier, and matches the path too. |
| GeeFacts.ParentRunsFirst | gee/gee.go:37-46 | When a nested group matches, so does its parent, and the parent's middleware comes earlier in the chain. |
| GeeFacts.UseOnlyAffectsMatching | gee/gee.go:73-75 | `Use` changes the chain only for paths the group's prefix starts, and there it inserts the new middleware right after that group's earlier middleware. |
| GeeFacts.NewGroupSelectsNothingNew | gee/gee.go:39-44 | Creating a group changes no request's chain. |
| GeeFacts.PrefixIsNotSegmentAware | gee/gee.go:86 | The "/api" group's middleware also runs for "/apikey": matching is a plain string-prefix test, not a path-segment test. |
| GeeFacts.DoubleSlashGroupNeverSelected | gee/gee.go:82-86 | A group whose prefix contains "//" contributes nothing to any chain, because only request paths are normalised. |
| GeeFacts.NestedSlashGroupUnreachable | gee/gee.go:40 | `Group("/v1/").Group("/x")` gets the prefix "/v1//x", and middleware registered on it never joins any chain. |
| GeeFacts.ServeIgnoresDuplicateSlashes | gee/gee.go:82-83 | A request is served exactly like the one whose path has every run of slashes collapsed. |
| GeeFacts.DispatchSeesRegisteredPattern | gee/gee.go:50-52 | Serving the text a route was registered with looks up exactly the stored pattern, and so does serving the stored pattern. |
| GeeFacts.GetPostSamePattern | gee/gee.go:58-65 | GET and POST store the same pattern for the same group and text, under different methods. |
| GeeFacts.EveryHandlerRunsOnce | gee/gee.go:78-94 | When no handler in the chain fails or panics, dispatch ends normally and invokes every middleware and then the routed handler exactly once, in chain order. |
| GeeFacts.FirstFailStopsRequest | gee/context.go:102-105 | When the first selected middleware fails straight away, it is the only handler invoked, and the routed handler never runs. |
| GeeFacts.ParamAfterDispatch | gee/context.go:50-53 | After dispatch, `Param` returns the parameters the router captured, or "" when the key is absent or no route matched. |
| GeeFacts.NestedChainOrder | gee/gee.go:85-89 | With a logger on the engine and auth on a "/v1" group, paths under "/v1" get [logger, auth] and all other paths [logger]. |

## Behaviour of the code worth knowing

Each point is a property of the code, proved by the named lemma:

- **The raw cursor is not monotone.** `Fail` assigns `len(handlers)`
  (gee/context.go:103). After a failure inside a nested `Next`, the enclosing
  loop's `c.index++` leaves the cursor at N+1. A later `Fail` in the outer
  handler sets it back to N (`ChainFacts.CursorCanMoveBack`). The effective
  cursor, min(index, N), never moves back (`Continues`, in every contract of
  `Chain`).
- **`Status` overwrites.** gee/context.go:67 assigns the code on every call,
  so `c.StatusCode` holds the last code written (`RequestContext.Status`).
  The response sent keeps the first one, because `net/http` ignores later
  `WriteHeader` calls (see "Left out").
- **Recovery is an ordinary middleware.** `Recovery()` returns a handler
  that can be registered anywhere in a chain (gee/recovery.go:12). No panic
  escapes it (`ChainFacts.RecoveryContainsFault`). When it comes first, no
  panic of the request escapes (`ChainFacts.RecoveryFirstNeverFaults`). When
  the first handler's body opens with a panic, that panic ends the request,
  whatever recovery middleware comes later
  (`ChainFacts.PanicBeforeRecoveryEscapes`).
- **Group matching is a plain string-prefix test.**
  `strings.HasPrefix(req.URL.Path, group.prefix)` (gee/gee.go:86) selects
  the "/api" group for "/apikey" (`GeeFacts.PrefixIsNotSegmentAware`).
- **Group prefixes are never normalised.** Only route patterns and request
  paths are (gee/gee.go:52, gee/gee.go:83). So a group prefix containing
  "//", such as the "/v1//x" of `Group("/v1/").Group("/x")`, never matches,
  and its middleware never runs (`GeeFacts.NestedSlashGroupUnreachable`).

## Left out

- `router.go`, with the path trie, `AddRouter` and `handle`, is not part of
  this model:
  - dispatch takes the router's lookup as a function from method and
    normalised path to the matched handler and parameters, plus the handler
    to use when nothing matches;
  - registered routes are kept as a list in the engine.
- `Run` (gee/gee.go:68-70) hands the engine to `net/http`'s server. It is
  network I/O.
- `Static` and `createStaticHandler` (gee/gee.go:97-116) delegate to the
  file system and `net/http`'s file server.
- `PostForm` and `Query` (gee/context.go:56-63) read the raw request through
  `net/http`.
- `HTML` (gee/context.go:108-114) renders through external templates, and
  `newContext` never sets the `engine` field it reads.
- RequestContext.String: the text arrives already formatted; `fmt.Sprintf` is
  not modelled.
- RequestContext.JSON:
  - the object is a map from strings to strings, and the body is that map,
    not its encoding;
  - the encoder's error path (gee/context.go:89-91) is not modelled. The
    encoder returns the error of the underlying `Write`. That happens when
    the status allows no body (1xx, 204, 304) or the connection is broken.
    `http.Error` then adds two headers, a `WriteHeader(500)` and a text
    body, which the model's write log does not record. The model always
    records the JSON body as written.
- RequestContext.Fail: it responds through `JSON`, so it has the same gap:
  `Fail` with a bodiless status such as 304 reaches the error path in the
  code, which the model does not follow.
- Traceback.Trace:
  - `runtime.Callers` and `FuncForPC` become an input list of frames, already
    past the three skipped frames;
  - `log.Printf` becomes an append to the context's log.
- The registration log line of `addRoute` (gee/gee.go:53) is not modelled.
- Handlers are fixed scripts of steps. A handler whose steps depend on the
  request's contents is represented by the script it would follow for that
  request.
- Chain.Invoke: a panic value is modelled as its `%s` text. A panic that no
  recovery middleware catches ends the model with a `Fault` outcome.
  `net/http`'s own per-connection recovery is outside it.
- Recovery.Rescue: every panic carries a value, and the middleware always
  logs the trace and calls Fail(500). The `err != nil` test of
  gee/recovery.go:15 is not modelled. Under Go's pre-1.21 panic rules
  (`GODEBUG=panicnil=1`, the default for modules declaring go 1.20 or
  earlier), `panic(nil)` makes `recover()` return nil. The code then stops
  the panic without logging or calling Fail. The recovery handler returns
  normally with the cursor still on the handler that panicked. So the
  enclosing loop goes on to the next handler: `[Recovery(), func(c) {
  panic(nil) }, B]` runs B and writes no 500.
- Recovery.Rescue: the frames of the trace are fixed per recovery
  middleware (`Recovering(stack)`). In the code, `runtime.Callers` runs in
  the deferred function on the panicking goroutine's stack, so the frames
  are those of whichever handler panicked. One frame list stands for every
  panic that middleware catches. The trace contracts quantify over all
  frame lists, so none of them depends on which list it is.
- RequestContext.Status: a status code is any integer. `net/http`'s
  `WriteHeader` panics on a code outside 100..999, so in the code
  `c.Status(0)` panics and the panic unwinds to the recovery middleware.
  This also applies to `String`, `JSON`, `Data` and `Fail`, which call
  `Status`. In the model these operations never panic, whatever the code.
- The response writer's own behaviour is not modelled: for example, it
  ignores a second `WriteHeader` and headers added after the status. The
  model records the calls gee makes on it, in order.
- Concurrency between requests is not modelled. The registry is built before
  serving and only read afterwards, so each request is modelled on its own.

=== FILE: chain.dfy ===
/**
 * Cooperative execution of a request's handler chain.
 *
 * `c.Next()` bumps the cursor and then loops, calling the handler under the
 * cursor and bumping it again, until the cursor leaves the chain. A handler
 * may call `c.Next()` itself to run the rest of the chain before its own
 * remaining steps; `c.Fail` moves the cursor to the end so that every loop
 * still on the stack stops. A panic unwinds every frame until the recovery
 * middleware catches it.
 *
 * The four functions below are that control flow written out: `Next` is the
 * call, `Drive` its loop, `Invoke` one handler call, `Perform` the steps of a
 * scripted handler body.
 */
module Chain {
  import opened RequestContext
  import Recovery

  /** How many handlers at or after cursor value `i` are still to run. */
  function Room(hs: seq<Handler>, i: int): nat {
    if i >= |hs| then 0 else |hs| - i
  }

  /** `c.Next()`: advance the cursor, then run handlers until the chain is exhausted. */
  function Next(c: Context): (r: Run)
    requires Wf(c)
    ensures Continues(c, r.ctx) && Wf(r.ctx)
    ensures r.outcome == Normal ==> r.ctx.index >= |c.handlers|
    decreases Room(c.handlers, c.index + 1), 3, 0
  {
    Drive(c.(index := c.index + 1))
  }

  /** The trace entry the loop makes when it calls the handler under the cursor. */
  function Called(c: Context): (d: Context)
    requires c.index >= 0 && Consistent(c, c.index) && c.index < |c.handlers|
    ensures d.trace == c.trace + [Invoked(c.index)]
    ensures Continues(c, d) && d.index == c.index && Wf(d)
  {
    assert !HasFail(c.trace);
    var d := c.(trace := c.trace + [Invoked(c.index)]);
    assert d.trace[|c.trace|] == Invoked(c.index);
    d
  }

  /** The loop of `Next`: call the handler under the cursor, bump the cursor, repeat. */
  function Drive(c: Context): (r: Run)
    requires c.index >= 0 && Consistent(c, c.index)
    ensures Continues(c, r.ctx) && Wf(r.ctx)
    ensures r.outcome == Normal ==> r.ctx.index >= |c.handlers|
    decreases Room(c.handlers, c.index), 2, 0
  {
    if c.index >= |c.handlers| then Run(c, Normal)
    else
      var r := Invoke(c.index, Called(c));
      if r.outcome.Fault? then r
      else Drive(r.ctx.(index := r.ctx.index + 1))
  }

  /** One call of the handler at index `j`, the cursor standing on it. */
  function Invoke(j: int, c: Context): (r: Run)
    requires 0 <= j < |c.handlers| && c.index == j && Wf(c)
    ensures Continues(c, r.ctx) && Wf(r.ctx)
    decreases Room(c.handlers, j), 1, 0
  {
    match c.handlers[j]
    case Script(steps) => Perform(j, steps, c)
    case Recovering(stack) => Recovery.Rescue(Next(c), stack)
  }

  /**
   * A step of handler `j` that neither hands control on nor panics: local
   * work, a response write, or Fail.
   */
  function Apply(j: int, step: Step, c: Context): (d: Context)
    requires !step.CallNext? && !step.Panic?
    requires Wf(c)
    ensures Continues(c, d) && Wf(d)
    ensures d.trace == c.trace + match step
      case Note(tag) => [Noted(j, tag)]
      case Abort(code, message) => [FailCalled(code, message)]
      case _ => []
    ensures !step.Abort? ==> d.index == c.index
  {
    match step
    case Note(tag) =>
      var d := c.(trace := c.trace + [Noted(j, tag)]);
      assert d.trace[|c.trace|] == Noted(j, tag);
      assert HasFail(d.trace) ==> HasFail(c.trace);
      d
    case SetStatus(code) => Status(c, code)
    case AddHeader(key, value) => SetHeader(c, key, value)
    case WriteString(code, text) => String(c, code, text)
    case WriteJSON(code, fields) => JSON(c, code, fields)
    case WriteData(code, data) => Data(c, code, data)
    case Abort(code, message) => Fail(c, code, message)
  }

  /** The remaining `steps` of the body of handler `j`. */
  function Perform(j: int, steps: seq<Step>, c: Context): (r: Run)
    requires 0 <= j < |c.handlers| && c.index >= j && Wf(c)
    ensures Continues(c, r.ctx) && Wf(r.ctx)
    decreases Room(c.handlers, j), 0, |steps|
  {
    if steps == [] then Run(c, Normal)
    else if steps[0].CallNext? then
      var r := Next(c);
      if r.outcome.Fault? then r else Perform(j, steps[1..], r.ctx)
    else if steps[0].Panic? then Run(c, Fault(steps[0].message))
    else Perform(j, steps[1..], Apply(j, steps[0], c))
  }
}

=== FILE: chain_facts.dfy ===
/**
 * What the cooperative chain guarantees beyond the invariants its functions
 * carry: when nothing aborts or panics every handler runs exactly once and in
 * order; once the cursor is past the end nothing more runs; the recovery
 * middleware turns a panic below it into exactly one 500 failure.
 */
module ChainFacts {
  import opened RequestContext
  import opened Chain
  import Recovery

  /** The handler indices the trace records as invoked, in order. */
  function Invocations(t: seq<Event>): seq<int>
    decreases |t|
  {
    if t == [] then []
    else Invocations(t[..|t| - 1]) + (if t[|t| - 1].Invoked? then [t[|t| - 1].index] else [])
  }

  lemma InvocationsSnoc(t: seq<Event>, e: Event)
    ensures Invocations(t + [e]) == Invocations(t) + (if e.Invoked? then [e.index] else [])
  {
    assert (t + [e])[..|t|] == t;
  }

  /** The indices lo, lo+1, ..., hi-1. */
  function Range(lo: int, hi: int): (r: seq<int>)
    ensures |r| == if lo < hi then hi - lo else 0
    ensures forall k | 0 <= k < |r| :: r[k] == lo + k
    decreases hi - lo
  {
    if lo >= hi then [] else [lo] + Range(lo + 1, hi)
  }

  /** A step that neither aborts the chain nor panics. */
  predicate CalmStep(s: Step) {
    !s.Abort? && !s.Panic?
  }

  predicate CalmSteps(steps: seq<Step>) {
    forall k | 0 <= k < |steps| :: CalmStep(steps[k])
  }

  predicate Calm(h: Handler) {
    h.Recovering? || CalmSteps(h.steps)
  }

  /** Every handler from index `i` on is calm. */
  predicate CalmFrom(hs: seq<Handler>, i: int) {
    forall k | 0 <= k < |hs| && i <= k :: Calm(hs[k])
  }

  /** The handler hands control to the rest of the chain at some point. */
  predicate CallsNext(h: Handler) {
    h.Recovering? || CallNext in h.steps
  }

  /**
   * When no handler still to run aborts or panics, `Next` runs every one of
   * them exactly once, in index order, and ends normally.
   */
  lemma {:induction false} NextRunsRest(c: Context)
    requires Wf(c) && CalmFrom(c.handlers, c.index + 1)
    ensures Next(c).outcome == Normal
    ensures Invocations(Next(c).ctx.trace) == Invocations(c.trace) + Range(c.index + 1, |c.handlers|)
    decreases Room(c.handlers, c.index + 1), 3, 0
  {
    DriveRunsRest(c.(index := c.index + 1));
  }

  lemma {:induction false} DriveRunsRest(c: Context)
    requires c.index >= 0 && Consistent(c, c.index) && CalmFrom(c.handlers, c.index)
    ensures Drive(c).outcome == Normal
    ensures Invocations(Drive(c).ctx.trace) == Invocations(c.trace) + Range(c.index, |c.handlers|)
    decreases Room(c.handlers, c.index), 2, 1
  {
    if c.index < |c.handlers| {
      DriveIteration(c);
      DriveCarriesOn(c);
      var next := AfterCall(c);
      DriveRunsRest(next);
      RangeJoin(Invocations(c.trace), c.index, next.index, |c.handlers|,
                Invocations(next.trace), Invocations(Drive(next).ctx.trace));
    }
  }

  /** The loop's state after it called the handler under the cursor and bumped the cursor. */
  function AfterCall(c: Context): (next: Context)
    requires c.index >= 0 && Consistent(c, c.index) && c.index < |c.handlers|
  {
    var r := Invoke(c.index, Called(c));
    r.ctx.(index := r.ctx.index + 1)
  }

  /**
   * One iteration of the loop when the handler under the cursor is calm: it
   * is invoked once, and the loop goes on with the cursor past it.
   */
  lemma {:induction false} DriveIteration(c: Context)
    requires c.index >= 0 && Consistent(c, c.index) && CalmFrom(c.handlers, c.index)
    requires c.index < |c.handlers|
    ensures var next := AfterCall(c);
      && next.index >= 0 && Consistent(next, next.index) && CalmFrom(next.handlers, next.index)
      && next.handlers == c.handlers && next.index > c.index
      && (next.index >= |c.handlers| ==>
            Invocations(next.trace) == Invocations(c.trace) + [c.index] + Range(c.index + 1, |c.handlers|))
      && (next.index < |c.handlers| ==>
            next.index == c.index + 1 && Invocations(next.trace) == Invocations(c.trace) + [c.index])
    decreases Room(c.handlers, c.index), 2, 0
  {
    var called := Called(c);
    InvocationsSnoc(c.trace, Invoked(c.index));
    InvokeRuns(c.index, called);
  }

  /** A calm handler returns normally, so the loop carries on from `AfterCall`. */
  lemma {:induction false} DriveCarriesOn(c: Context)
    requires c.index >= 0 && Consistent(c, c.index) && CalmFrom(c.handlers, c.index)
    requires c.index < |c.handlers|
    ensures Drive(c) == Drive(AfterCall(c))
    decreases Room(c.handlers, c.index), 2, 0
  {
    InvokeRuns(c.index, Called(c));
  }

  /** The index bookkeeping of one loop iteration. */
  lemma RangeJoin(before: seq<int>, j: int, k: int, n: int, mid: seq<int>, after: seq<int>)
    requires j < n && j + 1 <= k
    requires k >= n ==> mid == before + [j] + Range(j + 1, n)
    requires k < n ==> k == j + 1 && mid == before + [j]
    requires after == mid + Range(k, n)
    ensures after == before + Range(j, n)
  {
    assert Range(j, n) == [j] + Range(j + 1, n);
    if k >= n {
      assert Range(k, n) == [];
    }
  }

  lemma {:induction false} InvokeRuns(j: int, c: Context)
    requires 0 <= j < |c.handlers| && c.index == j && Wf(c)
    requires Calm(c.handlers[j]) && CalmFrom(c.handlers, j + 1)
    ensures Invoke(j, c).outcome == Normal
    ensures CallsNext(c.handlers[j]) ==>
      && Invoke(j, c).ctx.index >= |c.handlers|
      && Invocations(Invoke(j, c).ctx.trace) == Invocations(c.trace) + Range(j + 1, |c.handlers|)
    ensures !CallsNext(c.handlers[j]) ==>
      && Invoke(j, c).ctx.index == j
      && Invocations(Invoke(j, c).ctx.trace) == Invocations(c.trace)
    decreases Room(c.handlers, j), 1, 0
  {
    match c.handlers[j]
    case Script(steps) =>
      PerformRuns(j, steps, c);
    case Recovering(stack) =>
      NextRunsRest(c);
  }

  /**
   * What the rest of a calm handler body does: it returns normally; when it
   * calls `Next`, every later handler runs once, in order, and the cursor
   * ends past the last one; otherwise it invokes nothing and leaves the
   * cursor where it was.
   */
  predicate RunsCalmly(j: int, steps: seq<Step>, c: Context)
    requires 0 <= j < |c.handlers| && c.index >= j && Wf(c)
  {
    var r := Perform(j, steps, c);
    && r.outcome == Normal
    && (CallNext in steps ==>
          && r.ctx.index >= |c.handlers|
          && Invocations(r.ctx.trace) == Invocations(c.trace) + Range(c.index + 1, |c.handlers|))
    && (CallNext !in steps ==>
          && r.ctx.index == c.index
          && Invocations(r.ctx.trace) == Invocations(c.trace))
  }

  lemma {:induction false} PerformRuns(j: int, steps: seq<Step>, c: Context)
    requires 0 <= j < |c.handlers| && c.index >= j && Wf(c)
    requires CalmSteps(steps) && CalmFrom(c.handlers, j + 1)
    ensures RunsCalmly(j, steps, c)
    decreases Room(c.handlers, j), 0, |steps|, 1
  {
    if steps != [] {
      CalmStepsTail(steps);
      if steps[0].CallNext? {
        PerformRunsNext(j, steps, c);
      } else {
        PerformRunsApply(j, steps, c);
      }
    }
  }

  /** A calm body whose first step calls `Next`. */
  lemma {:induction false} PerformRunsNext(j: int, steps: seq<Step>, c: Context)
    requires 0 <= j < |c.handlers| && c.index >= j && Wf(c)
    requires steps != [] && steps[0].CallNext?
    requires CalmSteps(steps[1..]) && CalmFrom(c.handlers, j + 1)
    ensures RunsCalmly(j, steps, c)
    decreases Room(c.handlers, j), 0, |steps|, 0
  {
    var rest := steps[1..];
    assert CallNext in steps;
    NextRunsRest(c);
    var r := Next(c);
    PerformCallsNext(j, steps, c);
    PerformRuns(j, rest, r.ctx);
    if CallNext in rest {
      assert Range(r.ctx.index + 1, |c.handlers|) == [];
      assert Invocations(r.ctx.trace) + [] == Invocations(r.ctx.trace);
    }
  }

  /** A calm body whose first step neither calls `Next` nor panics. */
  lemma {:induction false} PerformRunsApply(j: int, steps: seq<Step>, c: Context)
    requires 0 <= j < |c.handlers| && c.index >= j && Wf(c)
    requires steps != [] && CalmStep(steps[0]) && !steps[0].CallNext?
    requires CalmSteps(steps[1..]) && CalmFrom(c.handlers, j + 1)
    requires CallNext in steps <==> CallNext in steps[1..]
    ensures RunsCalmly(j, steps, c)
    decreases Room(c.handlers, j), 0, |steps|, 0
  {
    var d := Apply(j, steps[0], c);
    PerformApplies(j, steps, c);
    ApplyInvokesNothing(j, steps[0], c);
    assert d.index == c.index && d.handlers == c.handlers;
    PerformRuns(j, steps[1..], d);
    var f := Perform(j, steps[1..], d);
    if CallNext in steps[1..] {
      assert Invocations(f.ctx.trace) == Invocations(d.trace) + Range(d.index + 1, |d.handlers|);
    }
  }

  lemma CalmStepsTail(steps: seq<Step>)
    requires steps != [] && CalmSteps(steps)
    ensures CalmStep(steps[0]) && CalmSteps(steps[1..])
    ensures CallNext in steps <==> steps[0].CallNext? || CallNext in steps[1..]
  {
    assert steps == [steps[0]] + steps[1..];
    forall k | 0 <= k < |steps| - 1 ensures CalmStep(steps[1..][k]) {
      assert steps[1..][k] == steps[k + 1];
    }
  }

  /** How `Perform` goes on after a step that neither hands control on nor panics. */
  lemma PerformApplies(j: int, steps: seq<Step>, c: Context)
    requires 0 <= j < |c.handlers| && c.index >= j && Wf(c)
    requires steps != [] && !steps[0].CallNext? && !steps[0].Panic?
    ensures Perform(j, steps, c) == Perform(j, steps[1..], Apply(j, steps[0], c))
  {
  }

  /** How `Perform` goes on after a call of `Next` that returned normally. */
  lemma PerformCallsNext(j: int, steps: seq<Step>, c: Context)
    requires 0 <= j < |c.handlers| && c.index >= j && Wf(c)
    requires steps != [] && steps[0].CallNext? && Next(c).outcome == Normal
    ensures Perform(j, steps, c) == Perform(j, steps[1..], Next(c).ctx)
  {
  }

  /** No step other than a call of `Next` invokes a handler. */
  lemma ApplyInvokesNothing(j: int, step: Step, c: Context)
    requires !step.CallNext? && !step.Panic? && Wf(c)
    ensures Invocations(Apply(j, step, c).trace) == Invocations(c.trace)
  {
    match step
    case Note(tag) => InvocationsSnoc(c.trace, Noted(j, tag));
    case Abort(code, message) => InvocationsSnoc(c.trace, FailCalled(code, message));
    case _ =>
  }

  /** `Next` with the cursor already past the end only moves the cursor. */
  lemma NextExhausted(c: Context)
    requires Wf(c) && c.index >= |c.handlers|
    ensures Next(c) == Run(c.(index := c.index + 1), Normal)
  {
  }

  /**
   * Once the cursor is past the last handler, the remaining steps of a
   * handler body (including further calls of `Next`) invoke no handler, and
   * the cursor stays past the end.
   */
  lemma {:induction false} ExhaustedInvokesNothing(j: int, steps: seq<Step>, c: Context)
    requires 0 <= j < |c.handlers| && c.index >= |c.handlers| && Wf(c)
    ensures Invocations(Perform(j, steps, c).ctx.trace) == Invocations(c.trace)
    ensures Perform(j, steps, c).ctx.index >= |c.handlers|
    decreases |steps|
  {
    if steps != [] {
      var rest := steps[1..];
      if steps[0].CallNext? {
        NextExhausted(c);
        PerformCallsNext(j, steps, c);
        ExhaustedInvokesNothing(j, rest, Next(c).ctx);
      } else if !steps[0].Panic? {
        PerformApplies(j, steps, c);
        ApplyInvokesNothing(j, steps[0], c);
        ExhaustedInvokesNothing(j, rest, Apply(j, steps[0], c));
      }
    }
  }

  /**
   * A handler that calls Fail invokes no further handler with the rest of its
   * body, and leaves the cursor past the end so that the loops of enclosing
   * `Next` calls stop as well: the enclosing loop returns the context as it
   * found it, apart from its own cursor bump.
   */
  lemma AbortSkipsRest(j: int, code: int, message: string, rest: seq<Step>, c: Context)
    requires 0 <= j < |c.handlers| && c.index >= j && Wf(c)
    ensures Invocations(Perform(j, [Abort(code, message)] + rest, c).ctx.trace) == Invocations(c.trace)
    ensures Perform(j, [Abort(code, message)] + rest, c).ctx.index >= |c.handlers|
    ensures var after := Perform(j, [Abort(code, message)] + rest, c).ctx;
      var bumped := after.(index := after.index + 1);
      Drive(bumped) == Run(bumped, Normal)
  {
    var steps := [Abort(code, message)] + rest;
    assert steps[1..] == rest;
    PerformApplies(j, steps, c);
    ApplyInvokesNothing(j, steps[0], c);
    ExhaustedInvokesNothing(j, rest, Apply(j, steps[0], c));
  }

  /**
   * The recovery middleware: when the rest of the chain ends normally it is
   * exactly `Next`; when the rest panics, the panic does not escape, Fail(500,
   * "Internal Server Error") is called exactly once, the cursor ends past the
   * last handler, and what ran before the panic keeps its effects.
   */
  lemma RecoveryContainsFault(j: int, c: Context)
    requires 0 <= j < |c.handlers| && c.index == j && Wf(c) && c.handlers[j].Recovering?
    ensures Invoke(j, c).outcome == Normal
    ensures Invoke(j, c).ctx.index >= |c.handlers|
    ensures Next(c).outcome == Normal ==> Invoke(j, c) == Next(c)
    ensures Next(c).outcome.Fault? ==>
      && Invoke(j, c).ctx.statusCode == Recovery.InternalServerError
      && Invoke(j, c).ctx.index == |c.handlers|
      && Recovery.FailCount(Invoke(j, c).ctx.trace) == Recovery.FailCount(Next(c).ctx.trace) + 1
      && Next(c).ctx.sink <= Invoke(j, c).ctx.sink
      && Next(c).ctx.trace <= Invoke(j, c).ctx.trace
  {
  }

  /**
   * With the recovery middleware first in the chain, no panic anywhere in the
   * chain escapes the request.
   */
  lemma RecoveryFirstNeverFaults(c: Context)
    requires Wf(c) && c.index == -1 && |c.handlers| > 0 && c.handlers[0].Recovering?
    ensures Next(c).outcome == Normal
  {
    var start := c.(index := 0);
    assert Next(c) == Drive(start);
    var called := start.(trace := start.trace + [Invoked(0)]);
    assert called.trace[|start.trace|] == Invoked(0);
    RecoveryContainsFault(0, called);
  }

  /**
   * The recovery middleware covers only what runs inside its own `Next`: a
   * handler placed before it that panics ends the request with that panic,
   * whatever recovery middleware comes later in the chain.
   */
  lemma PanicBeforeRecoveryEscapes(c: Context, message: string, rest: seq<Step>)
    requires Wf(c) && c.index == -1 && |c.handlers| > 0
    requires c.handlers[0] == Script([Panic(message)] + rest)
    ensures Next(c).outcome == Fault(message)
  {
    var start := c.(index := 0);
    assert Next(c) == Drive(start);
    var called := Called(start);
    assert Invoke(0, called) == Perform(0, [Panic(message)] + rest, called);
  }

  /**
   * The raw cursor is not monotone. In the chain
   * [Script([CallNext, Abort(1, "x")]), Script([Abort(2, "y")])] the second
   * handler's Fail puts the cursor at 2, the loop of the first handler's
   * nested `Next` bumps it to 3, and the first handler's own Fail then sets
   * it back to 2; the outer loop bumps it to 3 again and stops. Only the
   * effective cursor (`Effective`) never moves back.
   */
  lemma CursorCanMoveBack(req: Request)
    ensures var c := NewContext(req).(handlers := [Script([CallNext, Abort(1, "x")]), Script([Abort(2, "y")])]);
      var nested := Next(Called(c.(index := 0)));
      && nested.outcome == Normal && nested.ctx.index == 3
      && Fail(nested.ctx, 1, "x").index == 2
      && Next(c).outcome == Normal && Next(c).ctx.index == 3
  {
    var hs := [Script([CallNext, Abort(1, "x")]), Script([Abort(2, "y")])];
    var c := NewContext(req).(handlers := hs);
    var first := Called(c.(index := 0));
    NestedNextOverruns(first);
    var nested := Next(first);
    var back := Fail(nested.ctx, 1, "x");
    assert [CallNext, Abort(1, "x")][1..] == [Abort(1, "x")];
    assert [Abort(1, "x")][1..] == [];
    assert Perform(0, [Abort(1, "x")], nested.ctx) == Run(back, Normal);
    assert Invoke(0, first) == Run(back, Normal);
    assert back.index == 2;
    assert Next(c) == Drive(c.(index := 0));
    assert Next(c) == Drive(back.(index := 3));
  }

  /** A nested `Next` whose only remaining handler fails leaves the cursor one past the end. */
  lemma NestedNextOverruns(d: Context)
    requires Wf(d) && d.index == 0 && |d.handlers| == 2 && d.handlers[1] == Script([Abort(2, "y")])
    ensures Next(d).outcome == Normal && Next(d).ctx.index == 3
  {
    var second := Called(d.(index := 1));
    var failed := Fail(second, 2, "y");
    assert [Abort(2, "y")][1..] == [];
    assert Perform(1, [Abort(2, "y")], second) == Run(failed, Normal);
    assert Invoke(1, second) == Run(failed, Normal);
    assert failed.index == 2;
    assert Next(d) == Drive(d.(index := 1));
    assert Next(d) == Drive(failed.(index := 3));
  }
}

=== FILE: context.dfy ===
/**
 * The per-request context: what the request asked for, the handler chain
 * assembled for it, the cursor into that chain, and the response written so
 * far.
 *
 * Handlers are data here. A handler is either a script of steps (the calls a
 * handler body makes on its context, in order) or the recovery middleware.
 * The response writer becomes a log of the writes made to it, and an
 * execution trace records which handlers were invoked and where the chain
 * was aborted.
 */
module RequestContext {
  import Traceback

  newtype byte = x: int | 0 <= x < 256

  /** One thing a handler body does with its context. */
  datatype Step =
    | Note(tag: string)                              // handler-local work, visible only in the trace
    | CallNext                                       // c.Next()
    | SetStatus(code: int)                           // c.Status(code)
    | AddHeader(key: string, value: string)          // c.SetHeader(key, value)
    | WriteString(code: int, text: string)           // c.String(code, ...), text already formatted
    | WriteJSON(code: int, fields: map<string, string>)  // c.JSON(code, obj)
    | WriteData(code: int, data: seq<byte>)          // c.Data(code, data)
    | Abort(code: int, message: string)              // c.Fail(code, message)
    | Panic(message: string)                         // panic(message)

  /** A handler function: a scripted body, or the recovery middleware. */
  datatype Handler =
    | Script(steps: seq<Step>)
    | Recovering(stack: seq<Traceback.Frame>)  // the stack the runtime would capture on a panic

  datatype Body = TextBody(text: string) | JsonBody(fields: map<string, string>) | RawBody(data: seq<byte>)

  /** One call on the underlying response writer. */
  datatype Write =
    | HeaderAdded(key: string, value: string)
    | HeaderWritten(code: int)
    | BodyWritten(body: Body)

  /** What the execution trace records. */
  datatype Event =
    | Invoked(index: int)                  // the chain loop called handlers[index]
    | Noted(owner: int, tag: string)     // a Note step of handlers[owner]
    | FailCalled(code: int, message: string)

  datatype Request = Request(httpMethod: string, path: string)

  datatype Context = Context(
    path: string,
    httpMethod: string,
    params: map<string, string>,
    statusCode: int,
    handlers: seq<Handler>,
    index: int,
    sink: seq<Write>,
    trace: seq<Event>,
    log: seq<string>)

  /** How a run of (part of) the chain ended: normally, or by an unrecovered panic. */
  datatype Outcome = Normal | Fault(message: string)

  datatype Run = Run(ctx: Context, outcome: Outcome)

  /* ----- Facts about the execution trace ----- */

  /** Every handler index the trace records as invoked is below `bound`. */
  predicate InvokesBelow(t: seq<Event>, bound: int) {
    forall a | 0 <= a < |t| && t[a].Invoked? :: t[a].index < bound
  }

  /** Handlers were invoked in strictly increasing index order, so none twice. */
  predicate InvokesIncreasing(t: seq<Event>) {
    forall a, b | 0 <= a < b < |t| && t[a].Invoked? && t[b].Invoked? :: t[a].index < t[b].index
  }

  /** No handler was invoked after a Fail. */
  predicate NoInvokeAfterFail(t: seq<Event>) {
    forall a, b | 0 <= a < b < |t| && t[a].FailCalled? :: !t[b].Invoked?
  }

  predicate HasFail(t: seq<Event>) {
    exists a | 0 <= a < |t| :: t[a].FailCalled?
  }

  /**
   * The consistency the chain keeps between cursor and trace, with every
   * recorded invocation below `bound`.
   */
  predicate Consistent(c: Context, bound: int) {
    && c.index >= -1
    && InvokesBelow(c.trace, bound)
    && InvokesBelow(c.trace, |c.handlers|)
    && InvokesIncreasing(c.trace)
    && NoInvokeAfterFail(c.trace)
    && (HasFail(c.trace) ==> c.index >= |c.handlers|)
  }

  /** Well-formed between handler calls: invocations are at or below the cursor. */
  predicate Wf(c: Context) {
    Consistent(c, c.index + 1)
  }

  /** The cursor as far as the chain is concerned: values past the end all mean "exhausted". */
  function Effective(c: Context): int {
    if c.index < |c.handlers| then c.index else |c.handlers|
  }

  /**
   * `d` continues `c`: same request and chain, the effective cursor has not
   * moved back, and trace, response and log have only been appended to.
   */
  predicate Continues(c: Context, d: Context) {
    && d.path == c.path
    && d.httpMethod == c.httpMethod
    && d.params == c.params
    && d.handlers == c.handlers
    && Effective(d) >= Effective(c)
    && c.trace <= d.trace
    && c.sink <= d.sink
    && c.log <= d.log
  }

  /* ----- Operations of the context ----- */

  /** A fresh context for `req`: nothing run yet, the cursor before the first handler. */
  function NewContext(req: Request): (c: Context)
    ensures c.index == -1
    ensures c.path == req.path && c.httpMethod == req.httpMethod
    ensures c.params == map[] && c.handlers == []
    ensures c.sink == [] && c.trace == []
    ensures c.statusCode == 0 && c.log == []
    ensures Wf(c)
  {
    Context(req.path, req.httpMethod, map[], 0, [], -1, [], [], [])
  }

  /** The route parameter `key`, or "" when the route captured no such parameter. */
  function Param(c: Context, key: string): (v: string)
    ensures key in c.params ==> v == c.params[key]
    ensures key !in c.params ==> v == ""
  {
    if key in c.params then c.params[key] else ""
  }

  /** Only the response (status code and writes) changed from `c` to `d`. */
  predicate OnlyResponse(c: Context, d: Context) {
    d == c.(statusCode := d.statusCode, sink := d.sink) && c.sink <= d.sink
  }

  /** Sets the status code, whatever it was, and writes the header. */
  function Status(c: Context, code: int): (d: Context)
    ensures d.statusCode == code
    ensures d.sink == c.sink + [HeaderWritten(code)]
    ensures OnlyResponse(c, d)
  {
    c.(statusCode := code, sink := c.sink + [HeaderWritten(code)])
  }

  function SetHeader(c: Context, key: string, value: string): (d: Context)
    ensures d.sink == c.sink + [HeaderAdded(key, value)]
    ensures OnlyResponse(c, d) && d.statusCode == c.statusCode
  {
    c.(sink := c.sink + [HeaderAdded(key, value)])
  }

  /** The writes a content-typed response makes: header, status, body. */
  function TypedWrites(contentType: string, code: int, body: Body): seq<Write> {
    [HeaderAdded("Content-Type", contentType), HeaderWritten(code), BodyWritten(body)]
  }

  function String(c: Context, code: int, text: string): (d: Context)
    ensures d.statusCode == code
    ensures d.sink == c.sink + TypedWrites("text/plain", code, TextBody(text))
    ensures OnlyResponse(c, d)
  {
    var e := Status(SetHeader(c, "Content-Type", "text/plain"), code);
    e.(sink := e.sink + [BodyWritten(TextBody(text))])
  }

  function JSON(c: Context, code: int, fields: map<string, string>): (d: Context)
    ensures d.statusCode == code
    ensures d.sink == c.sink + TypedWrites("application/json", code, JsonBody(fields))
    ensures OnlyResponse(c, d)
  {
    var e := Status(SetHeader(c, "Content-Type", "application/json"), code);
    e.(sink := e.sink + [BodyWritten(JsonBody(fields))])
  }

  function Data(c: Context, code: int, data: seq<byte>): (d: Context)
    ensures d.statusCode == code
    ensures d.sink == c.sink + [HeaderWritten(code), BodyWritten(RawBody(data))]
    ensures OnlyResponse(c, d)
  {
    var e := Status(c, code);
    e.(sink := e.sink + [BodyWritten(RawBody(data))])
  }

  /** The structured body a Fail writes. */
  function FailBody(message: string): Body {
    JsonBody(map["message" := message])
  }

  /**
   * Short-circuits the chain: the cursor jumps to the end of the chain and a
   * JSON body {"message": message} is written with `code`.
   */
  function Fail(c: Context, code: int, message: string): (d: Context)
    ensures d.index == |d.handlers|
    ensures d.statusCode == code
    ensures d.sink == c.sink + TypedWrites("application/json", code, FailBody(message))
    ensures d.trace == c.trace + [FailCalled(code, message)]
    ensures Continues(c, d) && d.log == c.log
    ensures Wf(c) ==> Wf(d)
  {
    var e := c.(index := |c.handlers|, trace := c.trace + [FailCalled(code, message)]);
    assert e.trace[|c.trace|].FailCalled?;
    JSON(e, code, map["message" := message])
  }
}

=== FILE: gee.dfy ===
/**
 * The engine: the flat registry of route groups (the engine itself acting as
 * the root group), route registration, and request dispatch.
 *
 * Groups are referred to by their position in the registry, which is where
 * the engine keeps them and what `Use` mutates through a group pointer.
 * Route resolution (the path trie and the router's `handle`) is not part of
 * this model: dispatch receives it as a resolver function from method and
 * normalised path to the matched handler and captured parameters, and a
 * handler to use when nothing matches.
 */
module Gee {
  import opened Wrappers
  import opened Paths
  import opened RequestContext
  import opened Chain

  datatype Group = Group(prefix: string, middlewares: seq<Handler>, parent: Option<nat>)

  datatype Route = Route(httpMethod: string, pattern: string, handler: Handler)

  datatype Engine = Engine(groups: seq<Group>, routes: seq<Route>)

  /** What the router found for a request. */
  datatype RouteMatch = RouteMatch(handler: Handler, params: map<string, string>)

  /** The root group: the engine's own group, first in the registry. */
  const Root: nat := 0

  /** A group handle the engine handed out. */
  predicate ValidGroup(e: Engine, g: nat) {
    g < |e.groups|
  }

  /**
   * The registry's shape: the root comes first with the empty prefix and no
   * parent, and every other group was created from an earlier group whose
   * prefix starts its own.
   */
  predicate Wellformed(e: Engine) {
    && |e.groups| >= 1
    && e.groups[Root].prefix == ""
    && e.groups[Root].parent == None
    && forall i | 1 <= i < |e.groups| :: HasEarlierParent(e.groups, i)
  }

  /** Group `i` was created from an earlier group whose prefix starts its own. */
  predicate HasEarlierParent(groups: seq<Group>, i: int)
    requires 0 <= i < |groups|
  {
    && groups[i].parent.Some?
    && groups[i].parent.value < i
    && groups[groups[i].parent.value].prefix <= groups[i].prefix
  }

  /** `New()`: an engine whose only group is the root. */
  function New(): (e: Engine)
    ensures |e.groups| == 1 && e.groups[Root].prefix == "" && e.groups[Root].middlewares == []
    ensures e.routes == []
    ensures Wellformed(e)
  {
    Engine([Group("", [], None)], [])
  }

  /**
   * `group.Group(prefix)`: a new group whose prefix is the parent's prefix
   * followed by `prefix`, as written, appended to the registry.
   */
  function NewGroup(e: Engine, g: nat, prefix: string): (r: (Engine, nat))
    requires ValidGroup(e, g)
    ensures r.1 == |e.groups| && |r.0.groups| == |e.groups| + 1
    ensures r.0.groups[..|e.groups|] == e.groups
    ensures r.0.groups[r.1] == Group(e.groups[g].prefix + prefix, [], Some(g))
    ensures r.0.routes == e.routes
    ensures Wellformed(e) ==> Wellformed(r.0)
  {
    var child := Group(e.groups[g].prefix + prefix, [], Some(g));
    var e' := e.(groups := e.groups + [child]);
    assert e'.groups[..|e.groups|] == e.groups;
    assert HasEarlierParent(e'.groups, |e.groups|);
    assert forall i | 1 <= i < |e.groups| :: HasEarlierParent(e.groups, i) ==> HasEarlierParent(e'.groups, i);
    (e', |e.groups|)
  }

  /** `group.Use(middlewares...)`: appended, in order, to that group's list only. */
  function Use(e: Engine, g: nat, middlewares: seq<Handler>): (r: Engine)
    requires ValidGroup(e, g)
    ensures |r.groups| == |e.groups| && r.routes == e.routes
    ensures r.groups[g].middlewares == e.groups[g].middlewares + middlewares
    ensures r.groups[g].prefix == e.groups[g].prefix && r.groups[g].parent == e.groups[g].parent
    ensures r.groups[..g] == e.groups[..g] && r.groups[g + 1..] == e.groups[g + 1..]
    ensures Wellformed(e) ==> Wellformed(r)
  {
    var group := e.groups[g];
    var r := e.(groups := e.groups[g := group.(middlewares := group.middlewares + middlewares)]);
    assert forall i | 0 <= i < |e.groups| :: HasEarlierParent(e.groups, i) ==> HasEarlierParent(r.groups, i);
    r
  }

  /** `addRoute`: the group's prefix and `comp` joined, then normalised, under `httpMethod`. */
  function AddRoute(e: Engine, g: nat, httpMethod: string, comp: string, handler: Handler): (r: Engine)
    requires ValidGroup(e, g)
    ensures r.groups == e.groups
    ensures |r.routes| == |e.routes| + 1 && r.routes[..|e.routes|] == e.routes
    ensures r.routes[|e.routes|] == Route(httpMethod, Collapse(e.groups[g].prefix + comp), handler)
    ensures NoDoubleSlash(r.routes[|e.routes|].pattern)
    ensures Unslashed(r.routes[|e.routes|].pattern) == Unslashed(e.groups[g].prefix + comp)
  {
    var pattern := Collapse(e.groups[g].prefix + comp);
    CollapseKeepsContent(e.groups[g].prefix + comp);
    CollapseClean(e.groups[g].prefix + comp);
    var r := e.(routes := e.routes + [Route(httpMethod, pattern, handler)]);
    assert r.routes[..|e.routes|] == e.routes;
    r
  }

  function GET(e: Engine, g: nat, pattern: string, handler: Handler): (r: Engine)
    requires ValidGroup(e, g)
    ensures r.groups == e.groups && |r.routes| == |e.routes| + 1 && r.routes[..|e.routes|] == e.routes
    ensures r.routes[|e.routes|] == Route("GET", Collapse(e.groups[g].prefix + pattern), handler)
  {
    AddRoute(e, g, "GET", pattern, handler)
  }

  function POST(e: Engine, g: nat, pattern: string, handler: Handler): (r: Engine)
    requires ValidGroup(e, g)
    ensures r.groups == e.groups && |r.routes| == |e.routes| + 1 && r.routes[..|e.routes|] == e.routes
    ensures r.routes[|e.routes|] == Route("POST", Collapse(e.groups[g].prefix + pattern), handler)
  {
    AddRoute(e, g, "POST", pattern, handler)
  }

  /**
   * The middleware chain for a normalised request path: the middleware lists
   * of every group whose prefix starts the path, in registry order.
   */
  function MiddlewaresFor(groups: seq<Group>, path: string): seq<Handler>
    decreases |groups|
  {
    if groups == [] then []
    else (if groups[0].prefix <= path then groups[0].middlewares else [])
         + MiddlewaresFor(groups[1..], path)
  }

  /** The context `router.handle` hands to `Next`: the route's parameters and its handler last. */
  function Handle(c: Context, found: Option<RouteMatch>, notFound: Handler): (d: Context)
    requires Wf(c) && c.index == -1
    ensures Wf(d) && d.index == -1
    ensures d.handlers == c.handlers + [if found.Some? then found.value.handler else notFound]
    ensures d.params == if found.Some? then found.value.params else c.params
    ensures d.path == c.path && d.httpMethod == c.httpMethod && d.trace == c.trace
  {
    match found
    case Some(m) => c.(params := m.params, handlers := c.handlers + [m.handler])
    case None => c.(handlers := c.handlers + [notFound])
  }

  /**
   * `ServeHTTP`: normalise the path, collect the middleware of every group
   * whose prefix starts it, append the routed handler, and run the chain.
   */
  function ServeHTTP(e: Engine, req: Request, resolve: (string, string) -> Option<RouteMatch>, notFound: Handler): (r: Run)
    ensures r.ctx.path == Collapse(req.path) && NoDoubleSlash(r.ctx.path)
    ensures r.ctx.httpMethod == req.httpMethod
    ensures r.ctx.handlers ==
      MiddlewaresFor(e.groups, r.ctx.path) + [resolve(req.httpMethod, r.ctx.path).GetOr(RouteMatch(notFound, map[])).handler]
    ensures InvokesIncreasing(r.ctx.trace) && InvokesBelow(r.ctx.trace, |r.ctx.handlers|)
    ensures NoInvokeAfterFail(r.ctx.trace)
    ensures r.outcome == Normal ==> r.ctx.index >= |r.ctx.handlers|
  {
    var path := Collapse(req.path);
    CollapseClean(req.path);
    var c := NewContext(Request(req.httpMethod, path)).(handlers := MiddlewaresFor(e.groups, path));
    Next(Handle(c, resolve(req.httpMethod, path), notFound))
  }

  /** The loop of `ServeHTTP` that gathers the matching groups' middleware. */
  method SelectMiddlewares(groups: seq<Group>, path: string) returns (middlewares: seq<Handler>)
    ensures middlewares == MiddlewaresFor(groups, path)
  {
    middlewares := [];
    var i := 0;
    while i < |groups|
      invariant 0 <= i <= |groups|
      invariant middlewares + MiddlewaresFor(groups[i..], path) == MiddlewaresFor(groups, path)
      decreases |groups| - i
    {
      assert groups[i..][1..] == groups[i + 1..];
      if groups[i].prefix <= path {
        middlewares := middlewares + groups[i].middlewares;
      }
      i := i + 1;
    }
  }
}

=== FILE: gee_facts.dfy ===
/**
 * What the engine guarantees about group registration, route patterns and
 * the middleware chain it assembles for a request.
 */
module GeeFacts {
  import opened Wrappers
  import opened Paths
  import opened RequestContext
  import opened Chain
  import opened ChainFacts
  import opened Gee

  /* ----- Middleware selection ----- */

  lemma {:induction false} MiddlewaresForSplit(a: seq<Group>, b: seq<Group>, path: string)
    ensures MiddlewaresFor(a + b, path) == MiddlewaresFor(a, path) + MiddlewaresFor(b, path)
    decreases |a|
  {
    if a == [] {
      assert a + b == b;
    } else {
      assert (a + b)[0] == a[0] && (a + b)[1..] == a[1..] + b;
      MiddlewaresForSplit(a[1..], b, path);
    }
  }

  /** The share of group `i` in the chain sits between those of the groups before and after it. */
  lemma SelectedAt(groups: seq<Group>, i: int, path: string)
    requires 0 <= i < |groups|
    ensures MiddlewaresFor(groups, path) ==
      MiddlewaresFor(groups[..i], path)
      + (if groups[i].prefix <= path then groups[i].middlewares else [])
      + MiddlewaresFor(groups[i + 1..], path)
  {
    assert groups == groups[..i] + groups[i..];
    MiddlewaresForSplit(groups[..i], groups[i..], path);
    assert groups[i..][1..] == groups[i + 1..];
  }

  /**
   * A handler is in the chain for `path` exactly when some group whose prefix
   * starts `path` lists it.
   */
  lemma {:induction false} SelectedExactly(groups: seq<Group>, path: string, h: Handler)
    ensures h in MiddlewaresFor(groups, path) <==>
      exists i | 0 <= i < |groups| :: groups[i].prefix <= path && h in groups[i].middlewares
    decreases |groups|
  {
    if groups != [] {
      var rest := groups[1..];
      SelectedExactly(rest, path, h);
      if h in MiddlewaresFor(groups, path) && !(groups[0].prefix <= path && h in groups[0].middlewares) {
        var i :| 0 <= i < |rest| && rest[i].prefix <= path && h in rest[i].middlewares;
        assert groups[i + 1] == rest[i];
      }
      if exists i | 0 <= i < |groups| :: groups[i].prefix <= path && h in groups[i].middlewares {
        var i :| 0 <= i < |groups| && groups[i].prefix <= path && h in groups[i].middlewares;
        if i > 0 {
          assert rest[i - 1] == groups[i];
        }
      }
    }
  }

  /** The root group's middleware opens every chain, whatever the path. */
  lemma RootFirst(e: Engine, path: string)
    requires Wellformed(e)
    ensures e.groups[Root].middlewares <= MiddlewaresFor(e.groups, path)
  {
    SelectedAt(e.groups, Root, path);
    assert e.groups[..Root] == [];
  }

  /** When a nested group matches a path, its parent, registered earlier, matches it too. */
  lemma ParentMatches(e: Engine, i: int, path: string)
    requires Wellformed(e) && 1 <= i < |e.groups| && e.groups[i].prefix <= path
    ensures e.groups[i].parent.Some? && e.groups[i].parent.value < i
    ensures e.groups[e.groups[i].parent.value].prefix <= path
  {
    assert HasEarlierParent(e.groups, i);
    var p := e.groups[i].parent.value;
    PrefixTransitive(e.groups[p].prefix, e.groups[i].prefix, path);
  }

  lemma PrefixTransitive(a: string, b: string, c: string)
    requires a <= b && b <= c
    ensures a <= c
  {
    assert c[..|a|] == b[..|a|];
  }

  /** The chain around two matching groups `p` < `i`. */
  lemma SelectedTwice(groups: seq<Group>, p: int, i: int, path: string)
    requires 0 <= p < i < |groups| && groups[p].prefix <= path && groups[i].prefix <= path
    ensures MiddlewaresFor(groups, path) ==
      MiddlewaresFor(groups[..p], path) + groups[p].middlewares
      + MiddlewaresFor(groups[p + 1..i], path) + groups[i].middlewares
      + MiddlewaresFor(groups[i + 1..], path)
  {
    var before := groups[..i];
    SelectedAt(groups, i, path);
    SelectedAt(before, p, path);
    assert before[..p] == groups[..p];
    assert before[p + 1..] == groups[p + 1..i];
  }

  /**
   * When a nested group matches, its parent matches too, and the parent's
   * middleware comes first in the chain.
   */
  lemma ParentRunsFirst(e: Engine, i: int, path: string)
    requires Wellformed(e) && 1 <= i < |e.groups| && e.groups[i].prefix <= path
    ensures e.groups[i].parent.Some? && e.groups[i].parent.value < i
    ensures var p := e.groups[i].parent.value;
      MiddlewaresFor(e.groups, path) ==
        MiddlewaresFor(e.groups[..p], path) + e.groups[p].middlewares
        + MiddlewaresFor(e.groups[p + 1..i], path) + e.groups[i].middlewares
        + MiddlewaresFor(e.groups[i + 1..], path)
  {
    ParentMatches(e, i, path);
    SelectedTwice(e.groups, e.groups[i].parent.value, i, path);
  }

  /** `Use` adds to the chain of exactly the paths the group's prefix starts, right after the group's earlier middleware. */
  lemma UseOnlyAffectsMatching(e: Engine, g: nat, middlewares: seq<Handler>, path: string)
    requires ValidGroup(e, g)
    ensures e.groups[g].prefix <= path ==>
      && MiddlewaresFor(e.groups, path) ==
           MiddlewaresFor(e.groups[..g], path) + e.groups[g].middlewares + MiddlewaresFor(e.groups[g + 1..], path)
      && MiddlewaresFor(Use(e, g, middlewares).groups, path) ==
           MiddlewaresFor(e.groups[..g], path) + (e.groups[g].middlewares + middlewares)
           + MiddlewaresFor(e.groups[g + 1..], path)
    ensures !(e.groups[g].prefix <= path) ==>
      MiddlewaresFor(Use(e, g, middlewares).groups, path) == MiddlewaresFor(e.groups, path)
  {
    var r := Use(e, g, middlewares);
    SelectedAt(e.groups, g, path);
    SelectedAt(r.groups, g, path);
    assert r.groups[..g] == e.groups[..g];
    assert r.groups[g + 1..] == e.groups[g + 1..];
  }

  /** A new group brings no middleware: no chain changes until `Use` is called on it. */
  lemma NewGroupSelectsNothingNew(e: Engine, g: nat, prefix: string, path: string)
    requires ValidGroup(e, g)
    ensures MiddlewaresFor(NewGroup(e, g, prefix).0.groups, path) == MiddlewaresFor(e.groups, path)
  {
    var r := NewGroup(e, g, prefix).0;
    var child := r.groups[|e.groups|];
    assert r.groups == e.groups + [child];
    MiddlewaresForSplit(e.groups, [child], path);
    assert [child][1..] == [];
  }

  /**
   * Group matching is a plain string-prefix test, not a path-segment test: a
   * "/api" group's middleware also runs for "/apikey".
   */
  lemma PrefixIsNotSegmentAware(m: Handler)
    ensures var (e, api) := NewGroup(New(), Root, "/api");
      MiddlewaresFor(Use(e, api, [m]).groups, "/apikey") == [m]
  {
    var (e, api) := NewGroup(New(), Root, "/api");
    assert "" + "/api" == "/api";
    assert e.groups == [Group("", [], None), Group("/api", [], Some(Root))];
    assert api == 1;
    assert [] + [m] == [m];
    var r := Use(e, api, [m]);
    assert r.groups == [Group("", [], None), Group("/api", [m], Some(Root))];
    assert "/api" <= "/apikey";
    MiddlewaresForTwo(r.groups[0], r.groups[1], "/apikey");
  }

  /**
   * Request paths are normalised before matching, group prefixes never are:
   * a group whose prefix contains "//" never contributes to any chain.
   */
  lemma DoubleSlashGroupNeverSelected(e: Engine, g: nat, path: string)
    requires ValidGroup(e, g) && !NoDoubleSlash(e.groups[g].prefix)
    ensures !(e.groups[g].prefix <= Collapse(path))
    ensures MiddlewaresFor(e.groups, Collapse(path)) ==
      MiddlewaresFor(e.groups[..g] + e.groups[g + 1..], Collapse(path))
  {
    DoubleSlashNeverPrefixes(e.groups[g].prefix, path);
    SelectedAt(e.groups, g, Collapse(path));
    MiddlewaresForSplit(e.groups[..g], e.groups[g + 1..], Collapse(path));
  }

  /** A '/' directly followed by another anywhere in `s` breaks `NoDoubleSlash`. */
  lemma {:induction false} DoubleSlashAt(s: string, k: nat)
    requires k + 1 < |s| && s[k] == '/' && s[k + 1] == '/'
    ensures !NoDoubleSlash(s)
    decreases k
  {
    if k > 0 {
      DoubleSlashAt(s[1..], k - 1);
    }
  }

  /** The chain a two-group registry gives for `path`. */
  lemma MiddlewaresForTwo(a: Group, b: Group, path: string)
    ensures MiddlewaresFor([a, b], path) ==
      (if a.prefix <= path then a.middlewares else []) + (if b.prefix <= path then b.middlewares else [])
  {
    var sa := if a.prefix <= path then a.middlewares else [];
    var sb := if b.prefix <= path then b.middlewares else [];
    assert [b][1..] == [];
    assert MiddlewaresFor([b], path) == sb + [];
    assert sb + [] == sb;
    assert [a, b][1..] == [b];
    assert MiddlewaresFor([a, b], path) == sa + MiddlewaresFor([b], path);
  }

  /** `New().Group("/v1/").Group("/x")`: the engine and the handle of the inner group. */
  function SlashNested(): (r: (Engine, nat))
    ensures r == var (e1, v1) := NewGroup(New(), Root, "/v1/"); NewGroup(e1, v1, "/x")
    ensures ValidGroup(r.0, r.1) && r.0.groups[r.1].prefix == "/v1//x"
  {
    var (e1, v1) := NewGroup(New(), Root, "/v1/");
    assert "" + "/v1/" == "/v1/";
    assert "/v1/" + "/x" == "/v1//x";
    NewGroup(e1, v1, "/x")
  }

  /**
   * Nesting "/x" under a "/v1/" group gives the prefix "/v1//x": middleware
   * registered on that group never joins any request's chain.
   */
  lemma NestedSlashGroupUnreachable(middlewares: seq<Handler>, path: string)
    ensures var (e, x) := SlashNested();
      MiddlewaresFor(Use(e, x, middlewares).groups, Collapse(path)) == MiddlewaresFor(e.groups, Collapse(path))
  {
    var (e, x) := SlashNested();
    DoubleSlashAt(e.groups[x].prefix, 3);
    DoubleSlashNeverPrefixes(e.groups[x].prefix, path);
    UseOnlyAffectsMatching(e, x, middlewares, Collapse(path));
  }

  /* ----- Route registration and dispatch ----- */

  /**
   * A path that differs from another only in runs of '/' is served exactly
   * like it.
   */
  lemma {:induction false} ServeIgnoresDuplicateSlashes(e: Engine, httpMethod: string, path: string,
                                     resolve: (string, string) -> Option<RouteMatch>, notFound: Handler)
    ensures ServeHTTP(e, Request(httpMethod, path), resolve, notFound)
         == ServeHTTP(e, Request(httpMethod, Collapse(path)), resolve, notFound)
  {
    CollapseIdempotent(path);
  }

  /**
   * Registration and dispatch normalise the same way: serving the text a route
   * was registered with (group prefix and pattern) looks up exactly the
   * pattern the route was stored under, and so does serving that pattern.
   */
  lemma DispatchSeesRegisteredPattern(e: Engine, g: nat, httpMethod: string, comp: string, h: Handler,
                                      resolve: (string, string) -> Option<RouteMatch>, notFound: Handler)
    requires ValidGroup(e, g)
    ensures var r := AddRoute(e, g, httpMethod, comp, h);
      var pattern := r.routes[|e.routes|].pattern;
      && ServeHTTP(r, Request(httpMethod, e.groups[g].prefix + comp), resolve, notFound).ctx.path == pattern
      && ServeHTTP(r, Request(httpMethod, pattern), resolve, notFound).ctx.path == pattern
  {
    var pattern := Collapse(e.groups[g].prefix + comp);
    CollapseFixpoint(pattern);
  }

  /** GET and POST store the same normalised pattern for the same group and text. */
  lemma GetPostSamePattern(e: Engine, g: nat, pattern: string, h1: Handler, h2: Handler)
    requires ValidGroup(e, g)
    ensures GET(e, g, pattern, h1).routes[|e.routes|].pattern == POST(e, g, pattern, h2).routes[|e.routes|].pattern
    ensures GET(e, g, pattern, h1).routes[|e.routes|].httpMethod != POST(e, g, pattern, h2).routes[|e.routes|].httpMethod
  {
  }

  /** The context `ServeHTTP` starts the chain with. */
  function Start(e: Engine, req: Request, resolve: (string, string) -> Option<RouteMatch>, notFound: Handler): (c: Context)
    ensures Wf(c) && c.index == -1 && c.trace == []
    ensures c.path == Collapse(req.path)
    ensures c.handlers == MiddlewaresFor(e.groups, c.path) + [resolve(req.httpMethod, c.path).GetOr(RouteMatch(notFound, map[])).handler]
    ensures ServeHTTP(e, req, resolve, notFound) == Next(c)
  {
    var path := Collapse(req.path);
    Handle(NewContext(Request(req.httpMethod, path)).(handlers := MiddlewaresFor(e.groups, path)), resolve(req.httpMethod, path), notFound)
  }

  /**
   * When no handler in the chain aborts or panics, serving a request runs
   * every middleware and then the routed handler, each exactly once, in
   * chain order.
   */
  lemma EveryHandlerRunsOnce(e: Engine, req: Request, resolve: (string, string) -> Option<RouteMatch>, notFound: Handler)
    requires forall h | h in MiddlewaresFor(e.groups, Collapse(req.path)) :: Calm(h)
    requires Calm(resolve(req.httpMethod, Collapse(req.path)).GetOr(RouteMatch(notFound, map[])).handler)
    ensures ServeHTTP(e, req, resolve, notFound).outcome == Normal
    ensures Invocations(ServeHTTP(e, req, resolve, notFound).ctx.trace)
         == Range(0, |ServeHTTP(e, req, resolve, notFound).ctx.handlers|)
  {
    var c := Start(e, req, resolve, notFound);
    assert CalmFrom(c.handlers, 0) by {
      forall k | 0 <= k < |c.handlers|
        ensures Calm(c.handlers[k])
      {
        if k < |c.handlers| - 1 {
          assert c.handlers[k] in MiddlewaresFor(e.groups, c.path);
        }
      }
    }
    NextRunsRest(c);
  }

  /**
   * A first middleware that fails straight away stops the request: it is the
   * only handler invoked, and the route's handler never runs.
   */
  lemma FirstFailStopsRequest(e: Engine, req: Request, resolve: (string, string) -> Option<RouteMatch>, notFound: Handler,
                              code: int, message: string, rest: seq<Step>)
    requires var mws := MiddlewaresFor(e.groups, Collapse(req.path));
      |mws| > 0 && mws[0] == Script([Abort(code, message)] + rest)
    ensures Invocations(ServeHTTP(e, req, resolve, notFound).ctx.trace) == [0]
    ensures ServeHTTP(e, req, resolve, notFound).ctx.index >= |ServeHTTP(e, req, resolve, notFound).ctx.handlers|
  {
    var c := Start(e, req, resolve, notFound);
    var first := c.(index := 0);
    assert Next(c) == Drive(first);
    var called := Called(first);
    InvocationsSnoc(first.trace, Invoked(0));
    assert Invocations(called.trace) == [0];
    var steps := [Abort(code, message)] + rest;
    assert Invoke(0, called) == Perform(0, steps, called);
    AbortSkipsRest(0, code, message, rest, called);
  }

  /** After dispatch, `Param` reads the parameters the router captured, and "" when no route matched. */
  lemma ParamAfterDispatch(e: Engine, req: Request, resolve: (string, string) -> Option<RouteMatch>, notFound: Handler, key: string)
    ensures var found := resolve(req.httpMethod, Collapse(req.path));
      var v := Param(ServeHTTP(e, req, resolve, notFound).ctx, key);
      && (found.Some? && key in found.value.params ==> v == found.value.params[key])
      && (found.None? || key !in found.value.params ==> v == "")
  {
    var c := Start(e, req, resolve, notFound);
    assert c.params == if resolve(req.httpMethod, c.path).Some? then resolve(req.httpMethod, c.path).value.params else map[];
  }

  /** The registry of the engine `NestedChainOrder` builds. */
  function TwoLevels(logger: Handler, auth: Handler): (e: Engine)
    ensures e.groups == [Group("", [logger], None), Group("/v1", [auth], Some(Root))]
    ensures e == var (e1, v1) := NewGroup(Use(New(), Root, [logger]), Root, "/v1"); Use(e1, v1, [auth])
  {
    var e0 := Use(New(), Root, [logger]);
    var (e1, v1) := NewGroup(e0, Root, "/v1");
    assert "" + "/v1" == "/v1";
    assert v1 == 1;
    assert [] + [logger] == [logger] && [] + [auth] == [auth];
    Use(e1, v1, [auth])
  }

  /**
   * Middleware registered on the root, then on a "/v1" group: a request whose
   * normalised path starts with "/v1" gets the root's middleware, then the
   * group's; any other request only the root's. `ServeHTTP` puts the routed
   * handler after them.
   */
  lemma NestedChainOrder(logger: Handler, auth: Handler, path: string)
    ensures "/v1" <= path ==> MiddlewaresFor(TwoLevels(logger, auth).groups, path) == [logger, auth]
    ensures !("/v1" <= path) ==> MiddlewaresFor(TwoLevels(logger, auth).groups, path) == [logger]
  {
    var e := TwoLevels(logger, auth);
    assert e.groups[0] == Group("", [logger], None) && e.groups[1] == Group("/v1", [auth], Some(Root));
    assert "" <= path;
    MiddlewaresForTwo(e.groups[0], e.groups[1], path);
    Pair(logger, auth);
    assert [logger] + [] == [logger];
  }

  lemma Pair<T>(a: T, b: T)
    ensures [a] + [b] == [a, b]
  {
  }
}

=== FILE: paths.dfy ===
/**
 * Path normalisation shared by route registration and request dispatch.
 *
 * Both `addRoute` and `ServeHTTP` replace every match of the regular
 * expression "/+" by a single "/": each maximal run of slashes collapses to
 * one slash and every other character is kept in place.
 */
module Paths {

  /** No '/' in `s` is immediately followed by another '/'. */
  predicate NoDoubleSlash(s: string)
    decreases |s|
  {
    |s| < 2 || (!(s[0] == '/' && s[1] == '/') && NoDoubleSlash(s[1..]))
  }

  /** The characters of `s` other than '/', in order. */
  function Unslashed(s: string): string
    decreases |s|
  {
    if |s| == 0 then ""
    else if s[0] == '/' then Unslashed(s[1..])
    else [s[0]] + Unslashed(s[1..])
  }

  /** What remains of `s` after its leading run of slashes. */
  function SkipSlashes(s: string): (r: string)
    ensures |r| <= |s|
    ensures r == [] || r[0] != '/'
    decreases |s|
  {
    if |s| > 0 && s[0] == '/' then SkipSlashes(s[1..]) else s
  }

  /**
   * The regular-expression replacement "/+" -> "/", read the way the matcher
   * scans: left to right, a run of slashes is consumed whole and emitted as
   * one '/'.
   */
  function Collapse(s: string): (r: string)
    ensures |r| <= |s|
    ensures |r| == 0 <==> |s| == 0
    ensures |s| > 0 ==> r[0] == s[0]
    decreases |s|
  {
    if |s| == 0 then ""
    else if s[0] == '/' then ['/'] + Collapse(SkipSlashes(s[1..]))
    else [s[0]] + Collapse(s[1..])
  }

  /** A normalised path has no two consecutive slashes. */
  lemma {:induction false} CollapseClean(s: string)
    ensures NoDoubleSlash(Collapse(s))
    decreases |s|
  {
    if |s| > 0 {
      var t := if s[0] == '/' then SkipSlashes(s[1..]) else s[1..];
      CollapseClean(t);
      var rest := Collapse(t);
      assert Collapse(s) == [s[0]] + rest;
      assert ([s[0]] + rest)[1..] == rest;
    }
  }

  /**
   * An independent reading of the same normalisation as a local rewriting
   * rule: delete every '/' that is immediately followed by another '/'.
   */
  function Squeeze(s: string): string
    decreases |s|
  {
    if |s| < 2 then s
    else if s[0] == '/' && s[1] == '/' then Squeeze(s[1..])
    else [s[0]] + Squeeze(s[1..])
  }

  /** Under the local rule, a leading run of slashes also becomes one '/'. */
  lemma {:induction false} SqueezeRun(s: string)
    requires |s| > 0 && s[0] == '/'
    ensures Squeeze(s) == ['/'] + Squeeze(SkipSlashes(s[1..]))
    decreases |s|
  {
    if |s| == 1 {
      assert s[1..] == [];
      assert ['/'] + Squeeze([]) == s;
    } else if s[1] == '/' {
      var t := s[1..];
      assert t[0] == '/' && t[1..] == s[2..];
      assert Squeeze(s) == Squeeze(t);
      SqueezeRun(t);
      assert SkipSlashes(t) == SkipSlashes(s[2..]);
    } else {
      assert Squeeze(s) == [s[0]] + Squeeze(s[1..]);
      assert SkipSlashes(s[1..]) == s[1..];
    }
  }

  /** The scanning replacement and the local rule agree on every string. */
  lemma {:induction false} CollapseIsSqueeze(s: string)
    ensures Collapse(s) == Squeeze(s)
    decreases |s|
  {
    if |s| == 0 {
    } else if s[0] == '/' {
      SqueezeRun(s);
      CollapseIsSqueeze(SkipSlashes(s[1..]));
    } else {
      CollapseIsSqueeze(s[1..]);
      if |s| == 1 {
        assert s[1..] == [];
      }
    }
  }

  lemma {:induction false} SqueezeKeepsClean(s: string)
    requires NoDoubleSlash(s)
    ensures Squeeze(s) == s
    decreases |s|
  {
    if |s| >= 2 {
      SqueezeKeepsClean(s[1..]);
    }
  }

  /** A path is left unchanged by normalisation exactly when it has no "//". */
  lemma {:induction false} CollapseFixpoint(s: string)
    ensures Collapse(s) == s <==> NoDoubleSlash(s)
  {
    CollapseClean(s);
    if NoDoubleSlash(s) {
      CollapseIsSqueeze(s);
      SqueezeKeepsClean(s);
    }
  }

  /** Normalising twice gives the same path as normalising once. */
  lemma {:induction false} CollapseIdempotent(s: string)
    ensures Collapse(Collapse(s)) == Collapse(s)
  {
    CollapseClean(s);
    CollapseFixpoint(Collapse(s));
  }

  lemma {:induction false} SqueezeKeepsContent(s: string)
    ensures Unslashed(Squeeze(s)) == Unslashed(s)
    decreases |s|
  {
    if |s| >= 2 {
      SqueezeKeepsContent(s[1..]);
      if !(s[0] == '/' && s[1] == '/') {
        assert ([s[0]] + Squeeze(s[1..]))[1..] == Squeeze(s[1..]);
      }
    }
  }

  /** Normalisation only removes slashes: every other character survives, in order. */
  lemma {:induction false} CollapseKeepsContent(s: string)
    ensures Unslashed(Collapse(s)) == Unslashed(s)
  {
    CollapseIsSqueeze(s);
    SqueezeKeepsContent(s);
  }

  /** A prefix of a string without "//" has no "//" either. */
  lemma {:induction false} NoDoubleSlashPrefix(p: string, s: string)
    requires NoDoubleSlash(s) && p <= s
    ensures NoDoubleSlash(p)
    decreases |s|
  {
    if |p| >= 2 {
      assert p[1..] <= s[1..];
      NoDoubleSlashPrefix(p[1..], s[1..]);
    }
  }

  /**
   * A string containing "//" is never a prefix of a normalised path, whatever
   * the path was before normalisation.
   */
  lemma {:induction false} DoubleSlashNeverPrefixes(p: string, path: string)
    requires !NoDoubleSlash(p)
    ensures !(p <= Collapse(path))
  {
    if p <= Collapse(path) {
      CollapseClean(path);
      NoDoubleSlashPrefix(p, Collapse(path));
    }
  }

  lemma SkipOneSlash(s: string, j: int)
    requires 0 <= j < |s| && s[j] == '/'
    ensures SkipSlashes(s[j..]) == SkipSlashes(s[j + 1..])
  {
    assert s[j..][1..] == s[j + 1..];
  }

  lemma SkipNoSlash(s: string, j: int)
    requires 0 <= j <= |s| && (j == |s| || s[j] != '/')
    ensures SkipSlashes(s[j..]) == s[j..]
  {
  }

  /** One step of the scan at a slash: the run s[i..j] becomes one '/'. */
  lemma CollapseAtRun(s: string, i: int, j: int, done: string)
    requires 0 <= i < j <= |s| && s[i] == '/'
    requires SkipSlashes(s[i + 1..]) == s[j..]
    requires done + Collapse(s[i..]) == Collapse(s)
    ensures (done + ['/']) + Collapse(s[j..]) == Collapse(s)
  {
    var t := s[i..];
    assert t[1..] == s[i + 1..];
    CollapseSlashFirst(t);
    assert (done + ['/']) + Collapse(s[j..]) == done + (['/'] + Collapse(s[j..]));
  }

  lemma CollapseSlashFirst(t: string)
    requires |t| > 0 && t[0] == '/'
    ensures Collapse(t) == ['/'] + Collapse(SkipSlashes(t[1..]))
  {
  }

  /** One step of the scan at an ordinary character. */
  lemma CollapseAtChar(s: string, i: int, done: string)
    requires 0 <= i < |s| && s[i] != '/'
    requires done + Collapse(s[i..]) == Collapse(s)
    ensures (done + [s[i]]) + Collapse(s[i + 1..]) == Collapse(s)
  {
    var t := s[i..];
    assert t[0] == s[i] && t[1..] == s[i + 1..];
    assert Collapse(t) == [s[i]] + Collapse(t[1..]);
    assert (done + [s[i]]) + Collapse(s[i + 1..]) == done + ([s[i]] + Collapse(s[i + 1..]));
  }

  /** The end of the run of slashes that starts just after position `i`. */
  method RunEnd(s: string, i: int) returns (j: int)
    requires 0 <= i < |s|
    ensures i + 1 <= j <= |s|
    ensures SkipSlashes(s[i + 1..]) == s[j..]
  {
    j := i + 1;
    while j < |s| && s[j] == '/'
      invariant i + 1 <= j <= |s|
      invariant SkipSlashes(s[i + 1..]) == SkipSlashes(s[j..])
      decreases |s| - j
    {
      SkipOneSlash(s, j);
      j := j + 1;
    }
    SkipNoSlash(s, j);
  }

  /**
   * The replacement as the regular-expression engine performs it: scan the
   * input once, emit each ordinary character, and for a run of slashes emit
   * one '/' and skip the rest of the run.
   */
  method CollapseSlashes(s: string) returns (r: string)
    ensures r == Collapse(s)
  {
    r := "";
    var i := 0;
    assert s[0..] == s;
    while i < |s|
      invariant 0 <= i <= |s|
      invariant r + Collapse(s[i..]) == Collapse(s)
      decreases |s| - i
    {
      if s[i] == '/' {
        var j := RunEnd(s, i);
        CollapseAtRun(s, i, j, r);
        r := r + ['/'];
        i := j;
      } else {
        CollapseAtChar(s, i, r);
        r := r + [s[i]];
        i := i + 1;
      }
    }
    assert s[i..] == [];
  }
}

=== FILE: recovery.dfy ===
/**
 * The recovery middleware's deferred handler: a panic that unwinds out of
 * the rest of the chain is caught here, its trace is logged, and the request
 * is failed with status 500 instead.
 */
module Recovery {
  import opened RequestContext
  import Traceback

  const InternalServerError: int := 500
  const InternalServerErrorText: string := "Internal Server Error"

  /** Number of Fail calls the trace records. */
  function FailCount(t: seq<Event>): nat
    decreases |t|
  {
    if t == [] then 0
    else FailCount(t[..|t| - 1]) + (if t[|t| - 1].FailCalled? then 1 else 0)
  }

  /**
   * What `Recovery()` adds around `c.Next()`: `r` is how the rest of the
   * chain ended and `stack` the call stack the runtime would capture.
   */
  function Rescue(r: Run, stack: seq<Traceback.Frame>): (s: Run)
    ensures s.outcome == Normal
    ensures r.outcome == Normal ==> s == r
    ensures r.outcome.Fault? ==>
      && s.ctx.statusCode == InternalServerError
      && s.ctx.index == |s.ctx.handlers|
      && s.ctx.trace == r.ctx.trace + [FailCalled(InternalServerError, InternalServerErrorText)]
      && FailCount(s.ctx.trace) == FailCount(r.ctx.trace) + 1
      && s.ctx.sink == r.ctx.sink + TypedWrites("application/json", InternalServerError, FailBody(InternalServerErrorText))
      && s.ctx.log == r.ctx.log + [Traceback.Trace(r.outcome.message, stack) + "\n\n"]
    ensures Continues(r.ctx, s.ctx)
    ensures Wf(r.ctx) ==> Wf(s.ctx)
  {
    match r.outcome
    case Normal => r
    case Fault(message) =>
      var logged := r.ctx.(log := r.ctx.log + [Traceback.Trace(message, stack) + "\n\n"]);
      var failed := Fail(logged, InternalServerError, InternalServerErrorText);
      assert failed.trace[..|failed.trace| - 1] == r.ctx.trace;
      Run(failed, Normal)
  }
}

=== FILE: traceback.dfy ===
/**
 * The diagnostic text the recovery middleware logs for a caught panic: the
 * panic message, a "Traceback:" header, and one line per captured call
 * frame, at most 32 of them (the capacity of the program-counter buffer).
 *
 * Capturing the stack is left to the runtime; here the captured frames are an
 * input, already stripped of the frames the capture skips.
 */
module Traceback {

  /** One captured call frame: source file, function name, line number. */
  datatype Frame = Frame(file: string, func: string, line: nat)

  /** Capacity of the program-counter buffer the stack is captured into. */
  const MaxFrames: nat := 32

  function Min(a: nat, b: nat): nat {
    if a <= b then a else b
  }

  function DigitChar(d: nat): (c: char)
    requires d < 10
    ensures '0' <= c <= '9'
  {
    "0123456789"[d]
  }

  /** The decimal spelling of `n`, as `%d` prints it. */
  function Decimal(n: nat): (r: string)
    ensures |r| > 0
    ensures forall i | 0 <= i < |r| :: '0' <= r[i] <= '9'
    decreases n
  {
    if n < 10 then [DigitChar(n)] else Decimal(n / 10) + [DigitChar(n % 10)]
  }

  /** One frame line: "\n\t<file>#<function>:<line>". */
  function FrameLine(f: Frame): string {
    "\n\t" + f.file + "#" + f.func + ":" + Decimal(f.line)
  }

  function FrameLines(frames: seq<Frame>): string
    decreases |frames|
  {
    if frames == [] then "" else FrameLine(frames[0]) + FrameLines(frames[1..])
  }

  /** The fixed start of every trace. */
  function Header(message: string): string {
    message + "\n Traceback:"
  }

  /** The trace text for a panic `message` raised with call stack `stack`. */
  function Trace(message: string, stack: seq<Frame>): (r: string)
    ensures Header(message) <= r
  {
    var frames := stack[..Min(|stack|, MaxFrames)];
    var r := Header(message) + FrameLines(frames);
    assert r[..|Header(message)|] == Header(message);
    r
  }

  /** Number of line breaks in `s`. */
  function Newlines(s: string): nat
    decreases |s|
  {
    if s == [] then 0 else (if s[0] == '\n' then 1 else 0) + Newlines(s[1..])
  }

  lemma {:induction false} NewlinesConcat(a: string, b: string)
    ensures Newlines(a + b) == Newlines(a) + Newlines(b)
    decreases |a|
  {
    if a != [] {
      var ab := a + b;
      assert ab != [] && ab[0] == a[0] && ab[1..] == a[1..] + b;
      NewlinesConcat(a[1..], b);
    } else {
      assert a + b == b;
    }
  }

  lemma {:induction false} NoNewlineNoCount(s: string)
    requires forall i | 0 <= i < |s| :: s[i] != '\n'
    ensures Newlines(s) == 0
    decreases |s|
  {
    if s != [] {
      NoNewlineNoCount(s[1..]);
    }
  }

  /** A frame whose file and function names fit on one line. */
  predicate OneLine(f: Frame) {
    (forall i | 0 <= i < |f.file| :: f.file[i] != '\n') &&
    (forall i | 0 <= i < |f.func| :: f.func[i] != '\n')
  }

  lemma FrameLineIsOneLine(f: Frame)
    requires OneLine(f)
    ensures Newlines(FrameLine(f)) == 1
  {
    var d := Decimal(f.line);
    NoNewlineNoCount(f.file);
    NoNewlineNoCount(f.func);
    NoNewlineNoCount(d);
    NoNewlineNoCount("#");
    NoNewlineNoCount(":");
    NewlinesConcat("\n\t", f.file);
    NewlinesConcat("\n\t" + f.file, "#");
    NewlinesConcat("\n\t" + f.file + "#", f.func);
    NewlinesConcat("\n\t" + f.file + "#" + f.func, ":");
    NewlinesConcat("\n\t" + f.file + "#" + f.func + ":", d);
  }

  lemma {:induction false} FrameLinesCount(frames: seq<Frame>)
    requires forall k | 0 <= k < |frames| :: OneLine(frames[k])
    ensures Newlines(FrameLines(frames)) == |frames|
    decreases |frames|
  {
    if frames != [] {
      FrameLineIsOneLine(frames[0]);
      FrameLinesCount(frames[1..]);
      NewlinesConcat(FrameLine(frames[0]), FrameLines(frames[1..]));
    }
  }

  /**
   * The trace adds exactly one header line and one line per captured frame,
   * never more than 32 frame lines, however deep the stack is.
   */
  lemma TraceFrameBound(message: string, stack: seq<Frame>)
    requires forall k | 0 <= k < |stack| :: OneLine(stack[k])
    ensures Newlines(Trace(message, stack)) == Newlines(message) + 1 + Min(|stack|, MaxFrames)
    ensures Newlines(Trace(message, stack)) <= Newlines(message) + 1 + MaxFrames
  {
    var frames := stack[..Min(|stack|, MaxFrames)];
    FrameLinesCount(frames);
    NewlinesConcat(message, "\n Traceback:");
    NewlinesConcat(Header(message), FrameLines(frames));
  }
}

=== FILE: wrappers.dfy ===
/** Optional value, used where the framework works with
    a nil pointer or a missing map entry. */
module Wrappers {

  datatype Option<+T> = None | Some(value: T) {

    /** The held value, or `default` when there is none. */
    function GetOr(default: T): (r: T)
      ensures Some? ==> r == value
      ensures None? ==> r == default
    {
      match this
      case Some(v) => v
      case None => default
    }
  }
}
